=== FILE: README.md ===
# Click-score game server: a Dafny model of its round and registry core

`server.js` is a small WebSocket game server. Players connect, are given an
id and a display name, and during a timed round every `click` message adds a
point to the sender's score. When the countdown reaches zero the server
announces the winner(s) and the final scores, waits for a break, and starts
the next round if anybody is still connected.

Beneath the socket plumbing the server is a sequential state machine: Node
runs every callback to completion on one thread, so each connection, message,
close and timer firing is one atomic transition. This project models it as a
pure step function `Server.Step(state, event)` that returns the next state and
the messages sent, each with its list of recipients.

- `wrappers.dfy`, module `Wrappers`: `Option`.
- `registry.dfy`, module `Registry`: the `players` map. It is kept as a
  sequence in insertion order, the order in which a JavaScript `Map` iterates.
  The module also holds name truncation, the decimal rendering of ids
  (`String(nextId)`) and the default name `"Player" + id`. It gives lookup,
  insert, delete, click, rename and score reset on that map.
- `scoring.dfy`, module `Scoring`: the result computed by `endRound`. This is
  the maximum score, the tied winners, the single-name or array encoding of
  `winner`, and the name-to-score object. It has functional reference
  definitions and the three loops of `endRound` as methods proved equal to
  them.
- `server.dfy`, module `Server`: the state (`players`, `nextId`, `timeLeft`,
  `roundRunning`, plus which timers are armed), the events, the handlers,
  `Step`, `Run` (a sequence of events), the invariant `Inv` and `Enabled`.
  `Enabled` says which events the environment can deliver.
- `properties.dfy`, module `ServerProperties`: lemmas about `Step`.

Timers are modelled as events. `tickArmed` records that the one-second
interval is live. `graceTimers` counts armed join-grace timeouts and
`breakTimers` counts armed break timeouts. When a timer event arrives and
no such timer is armed, nothing happens.

Inbound messages carry the sender's id. `Step` follows the code for every
event, including events the environment cannot deliver, such as a click
from an id that is not registered. Such a click changes no score, but the
state is still broadcast. `Enabled` restricts messages and closes to
registered ids, because only an open connection can send them.

The code has no separate break phase. `roundRunning` is false both when the
server is idle and during a break. The model keeps this, and the following
consequences are proved as written:

- `start` during a break starts a round (`ServerProperties.StartGuard`).
- A join during a break arms the grace timeout. Its firing starts a round
  and cuts the break short (`ServerProperties.GraceGuard`).
- The break timeout starts a round whenever somebody is registered, even
  when a round is already running. It then restarts that round and wipes its
  scores (`ServerProperties.BreakGuard`,
  `ServerProperties.BreakTimeoutRestartsRunningRound`).

So in the code a break does not always end with the break timeout: a
`start` message or a grace timeout can end it earlier, and the break timeout
still fires afterwards.

A name hint that is present but empty is falsy in JavaScript, so that
player gets the default name `"Player" + id`.

## Model

| member | source | states |
|---|---|---|
| Registry.Truncate | server.js:68 | a name becomes a prefix of what was given, of length min(given length, 20) |
| ServerProperties.TruncateSpec | server.js:92 | names of up to 20 characters are kept unchanged, longer ones are cut to exactly 20, and truncating again changes nothing |
| Registry.Decimal | server.js:67 | an id is rendered as a non-empty string of decimal digits with no leading zero |
| Registry.DecimalRoundTrip | server.js:67 | reading the rendered id back as a decimal number gives the id |
| Registry.DefaultNameInjective | server.js:68 | two players who joined without a name hint have equal default names only if they have equal ids |
| Registry.JoinName | server.js:63-68 | a non-empty hint gives its truncation, the first min(length, 20) characters of the hint; a missing or empty hint gives exactly "Player" followed by the decimal id, with no leading zero |
| Registry.DefaultJoinNamesDistinct | server.js:67-68 | two players who join without a usable hint and get different ids get different names |
| Registry.IndexOf | server.js:86 | a lookup by id finds the first entry with that id, and finds nothing exactly when no entry has that id |
| Registry.IndexOfUnique | server.js:86-90 | when ids are unique, a lookup by an entry's id finds that entry |
| Registry.Without | server.js:101 | reference deletion: the result holds exactly the entries of the registry whose id differs |
| Registry.Put | server.js:70 | players.set: a new id appends the entry at the end and an existing id has its entry replaced in place; JoinSpec states its contract for the join, where the id is always new |
| Registry.Remove | server.js:101 | deleting a present id drops one entry, deleting an absent id changes nothing, and no new entry appears |
| Registry.RemoveIsWithout | server.js:101 | when ids are unique, deleting an id leaves exactly the other entries in their registration order |
| Registry.RemoveKeepsUnique | server.js:101 | deleting an entry keeps ids pairwise distinct |
| Registry.AddPoint | server.js:86-87 | a click adds one to the score of the entry found for the sender, changes no id, no name and no other entry, and changes nothing when the sender is not found |
| Registry.Rename | server.js:90-92 | a rename sets the name of the entry found for the sender to the truncated name, changes no id, no score and no other entry, and changes nothing when the sender is not found |
| Registry.ResetScores | server.js:20 | the score reset sets every score to 0 and keeps every entry's id and name, in the same order |
| Scoring.Winners | server.js:47-50 | reference definition of the winners: the players with the maximum score, in registry order; WinnersSpec states its contract |
| Scoring.FinalScores | server.js:52-53 | reference definition of the score object, built by assigning each player's score under its name in registry order; FinalScoresSpec states its contract |
| Scoring.RoundOutcome | server.js:45-55 | reference definition of the game_over payload: the winner field and the score object; RoundOutcomeSpec states its contract |
| Scoring.Encode | server.js:55 | the winner field: the bare name for exactly one winner, otherwise the array of names; RoundOutcomeSpec states its contract |
| Scoring.MaxScore | server.js:47-48 | there is no maximum exactly when the registry is empty; otherwise the maximum is some player's score and no player scores more |
| Scoring.WithScore | server.js:49 | the filter keeps exactly the players with the given score |
| Scoring.WithScoreAppend | server.js:49 | filtering commutes with concatenation, so winners appear in registration order |
| Scoring.WinnersSpec | server.js:47-50 | winners are empty exactly when the registry is; every winner is registered and scores at least as much as every player; a player is a winner exactly when nobody scores more |
| Scoring.FinalScoresSpec | server.js:52-53 | the score object has exactly the registered names as keys, and each name maps to the score of the last registered player with that name |
| Scoring.RoundOutcomeSpec | server.js:45-55 | an empty registry gives an empty winner array; the winner is a bare name exactly when there is one winner, and that winner's name; otherwise it is the array of winners' names in registration order |
| Scoring.FindMax | server.js:47-48 | the maximum loop, started from "no value", computes the reference maximum |
| Scoring.CollectNames | server.js:49-50 | the filter loop collects the names of the players with the maximum, in registration order |
| Scoring.FillScores | server.js:52-53 | the score loop builds the reference score object: every name is a key, and the last player registered with a name wins |
| Scoring.ComputeOutcome | server.js:45-55 | the three loops of endRound together produce the reference winner field and score object |
| Scoring.TiedWinnersExample | server.js:55 | scores A 5, B 5, C 3 report the array ["A", "B"] |
| Scoring.SingleWinnerExample | server.js:55 | scores A 5, B 3 report the bare name "A" |
| Scoring.SoloZeroScoreWins | server.js:55 | a lone player with no points is reported as the winner by bare name |
| Server.Broadcast | server.js:12-17 | a broadcast delivers the given message itself to every registered player, in registry order |
| Server.BroadcastState | server.js:36-43 | broadcastState: a snapshot of every player's id, name and score with the time left, sent to every player; SnapshotsAreCurrent states its contract |
| Server.Init | server.js:4-10 | the initial module state: no players, next id 1, no time left, no round, no timers; InitInv states its contract |
| Server.StartRound | server.js:19-34 | starting a round zeroes every score, keeps ids, names and order, sets the full round time, marks the round running with the interval live, leaves the counter and pending timeouts alone, and announces round_start to every player |
| Server.EndRound | server.js:45-60 | endRound: the round stops, the game_over result goes to every player and a break timeout is armed; TickSpec states its contract |
| Server.OnTick | server.js:26-33 | the interval callback; TickSpec, NoTickWhileIdle and CountDown state its contract |
| Server.OnJoin | server.js:62-79 | the connection handler; JoinSpec states its contract |
| Server.OnMessage | server.js:81-97 | the message handler; ClickSpec, SetNameSpec, StartGuard and UnrecognizedIgnored state its contract |
| Server.OnLeave | server.js:100-103 | the close handler; LeaveSpec states its contract |
| Server.OnGraceExpire | server.js:75-78 | the grace timeout callback; GraceGuard states its contract |
| Server.OnBreakExpire | server.js:57-59 | the break timeout callback; BreakGuard and BreakTimeoutRestartsRunningRound state its contract |
| Server.Step | server.js:19-103 | one callback run to completion, dispatched on the event; StepPreservesInv, SnapshotsAreCurrent, OtherEventsNeverStart and StepAssigns state its contract |
| ServerProperties.StartedRoundSpec | server.js:19-23 | whichever event starts a round, the round runs with all scores at zero, the full time ahead, and the same players in the same order |
| ServerProperties.JoinSpec | server.js:67-79 | a join assigns the unused id nextId, advances the counter and appends the newcomer with score 0; it sends assign_id to the newcomer alone and then the state to all; it arms a grace timeout exactly when no round is running |
| ServerProperties.LeaveSpec | server.js:100-103 | a close removes exactly the entry with that id, keeps the others in order, is a no-op for an unknown id, and sends the new state to the remaining players but not to the one who left |
| ServerProperties.ClickSpec | server.js:85-88 | a click adds exactly one point to the sender, and some score changes exactly when the sender is registered and a round runs; no id, name or other score changes; outside a round nothing changes; the state is broadcast every time |
| ServerProperties.SetNameSpec | server.js:89-94 | a rename sets the sender's name to its truncation and touches no id, no score and no other name; from an unknown id it changes nothing and sends nothing |
| ServerProperties.SnapshotsAreCurrent | server.js:36-43 | every state broadcast lists exactly the registry, in order, with the time left as the step leaves them, and goes to every registered player |
| ServerProperties.InitInv | server.js:4-10 | the initial state satisfies the invariant |
| ServerProperties.StepPreservesInv | server.js:19-103 | every callback keeps ids pairwise distinct, at least 1 and below nextId; keeps timeLeft between 0 and the round length, and at least 1 while a round runs; and keeps the interval live exactly while a round runs |
| ServerProperties.RunPreservesInv | server.js:19-103 | the invariant holds after any sequence of callbacks |
| ServerProperties.StartGuard | server.js:95-97 | start begins a round exactly when none is running, whatever the registry holds, and then does exactly what startRound does, leaving the pending grace and break timeouts alone; during a round it changes nothing and sends nothing |
| ServerProperties.UnrecognizedIgnored | server.js:85-97 | a message whose type is none of click, set_name and start changes nothing and sends nothing |
| ServerProperties.GraceGuard | server.js:75-78 | a grace timeout starts a round exactly when one was armed, no round runs and somebody is registered; a firing uses its timeout up, and one that starts no round changes nothing else and sends nothing |
| ServerProperties.BreakGuard | server.js:57-59 | a break timeout starts a round exactly when one was armed and somebody is registered, whether or not a round runs; a firing uses its timeout up, and one that starts no round changes nothing else and sends nothing |
| ServerProperties.OtherEventsNeverStart | server.js:62-103 | joins, closes, clicks, renames, unknown messages and ticks never start a round |
| ServerProperties.DormantWhileEmpty | server.js:57-78 | with nobody registered and no round running, no deliverable event other than a join starts a round or registers anyone |
| ServerProperties.TickSpec | server.js:26-33 | a tick takes exactly one second off and broadcasts the state; the round ends exactly when no time is left, and then the interval stops, the endRound result goes to every player and a break timeout is armed |
| ServerProperties.NoTickWhileIdle | server.js:25-33 | outside a round no interval is live, so a tick changes nothing and sends nothing |
| ServerProperties.CountDown | server.js:26-31 | n ticks into a round with t seconds left, t - n seconds are left, the round still runs exactly when n < t, the players are unchanged, and one break timeout is armed when the round ends |
| ServerProperties.RoundLastsRoundDuration | server.js:21-31 | an uninterrupted round is still running after 29 ticks and has ended after 30 |
| ServerProperties.JoinPlayRestart | server.js:19-78 | one join, the grace timeout and 30 ticks play a full round; the break timeout then starts the next round, but not if the player left during the break |
| ServerProperties.BreakTimeoutRestartsRunningRound | server.js:57-58 | after start during a break and a scored point, the pending break timeout restarts the running round with zero scores and the full time |
| ServerProperties.StepAssigns | server.js:67 | only a join hands out an id, namely nextId, and only a join advances the counter, by one |
| ServerProperties.BreakRestartsUnlessLeft | server.js:57-59 | after the first round the break timeout starts the next round, but not once its only player has left |
| ServerProperties.IdsNeverReused | server.js:67 | over any run the ids handed out strictly increase and lie between the counter's start and end values, so none is handed out twice |
| ServerProperties.FreshAgainstRegistry | server.js:67-70 | from a state satisfying the invariant, no id handed out during a run equals the id of a player registered before it |

## Left out

- The WebSocket server and sockets are left out, because they are transport I/O. This includes the `readyState === OPEN` filter in `broadcast`. A broadcast is modelled as a message with the list of registered ids as recipients.
- JSON serialisation and parsing are left out, because they are library calls. Malformed payloads are dropped silently in the source. Inbound messages are modelled as an already-parsed datatype, with `Unrecognized` for any other `type`.
- A payload that parses to `null` is left out. It gets past the `try` around the parse, and reading `msg.type` then throws a TypeError that the message listener does not catch, which by default ends the Node process. The `Inbound` datatype has no value for it, so the model has no crash transition.
- Parsing the URL query string for the name hint is left out, because it is a library call. The hint is an `Option<string>` input.
- The `String(...)` coercion of a non-string `name` in `set_name` is left out, because it comes from JavaScript dynamic typing. The name is taken as a string.
- Registry.Truncate: counts Dafny characters, but `slice` counts UTF-16 code units. The two differ only on names with characters outside the Basic Multilingual Plane.
- Scoring.FinalScoresSpec: models the score object as a map. A player named `__proto__` would be missing from the real JavaScript object, and the object's key order is not modelled.
- Wall-clock time is left out. The one-second interval, the one-second grace delay and the ten-second break (`breakDuration`) are modelled only as events that fire while armed. The model therefore allows more orderings than real time does, for example a round ending while the previous round's break timeout is still pending (two armed break timeouts), which real time excludes because a round lasts 30 seconds and a break 10. Every property above holds for all of these orderings.
- The `-Infinity` starting value of the maximum is replaced by `None`.
- JavaScript's number precision is left out. Scores and ids are unbounded naturals. The source would lose precision beyond 2^53, which is not reachable in practice.

=== FILE: properties.dfy ===
/** Properties of the game server's step function: the invariant every
    callback keeps, what each event does to the registry and the round, the
    phase guards on starting a round, the length of a round, and that ids
    are never handed out twice. */
module ServerProperties {
  import opened Wrappers
  import opened Registry
  import opened Scoring
  import opened Server

  // ---------------------------------------------------------------------------
  // Registry events
  // ---------------------------------------------------------------------------

  /** A connection gets id `nextId`, which no registered player holds; the
      counter moves on; the newcomer (score 0) is appended; it alone is told
      its id, then everybody gets the state; a grace timeout is armed exactly
      when no round is running. */
  lemma JoinSpec(s: State, hint: Option<string>)
    requires Inv(s)
    ensures var o := OnJoin(s, hint);
      && !Registered(s.players, s.nextId)
      && o.state.players == s.players + [Player(s.nextId, JoinName(hint, s.nextId), 0)]
      && o.state.nextId == s.nextId + 1
      && o.state.graceTimers == (if s.roundRunning then s.graceTimers else s.graceTimers + 1)
      && o.state.(players := s.players, nextId := s.nextId, graceTimers := s.graceTimers) == s
      && o.sent == [Delivery([s.nextId], AssignId(s.nextId, JoinName(hint, s.nextId))),
                    BroadcastState(o.state)]
  {
    assert IndexOf(s.players, s.nextId).None?;
  }

  /** A close removes exactly the entries with that id (at most one), keeps
      the others in their order, changes nothing if the id is unknown, and
      the remaining players, and only they, get the new state. */
  lemma LeaveSpec(s: State, id: Id)
    requires Inv(s)
    ensures var o := OnLeave(s, id);
      && o.state.players == Without(s.players, id)
      && !Registered(o.state.players, id)
      && (Registered(s.players, id) ==> |o.state.players| == |s.players| - 1)
      && (!Registered(s.players, id) ==> o.state == s)
      && o.state.(players := s.players) == s
      && o.sent == [BroadcastState(o.state)]
      && id !in o.sent[0].to
  {
    RemoveIsWithout(s.players, id);
    var r := Remove(s.players, id);
    assert !Registered(r, id) by {
      forall k | 0 <= k < |r|
        ensures r[k].id != id
      {
        assert r[k] in Without(s.players, id);
      }
    }
    assert id !in Ids(r);
  }

  /** A click raises the sender's score by one when the sender is
      registered and a round is running; no other score, no id, no name and
      nothing else changes, and outside a round nothing changes at all. The
      state is broadcast in every case. */
  lemma ClickSpec(s: State, from: Id)
    requires Inv(s)
    ensures var o := OnMessage(s, from, Click);
      && |o.state.players| == |s.players|
      && (forall i :: 0 <= i < |s.players| ==>
            && o.state.players[i].id == s.players[i].id
            && o.state.players[i].name == s.players[i].name
            && o.state.players[i].score ==
                 s.players[i].score + (if s.roundRunning && s.players[i].id == from then 1 else 0))
      && ((exists i :: 0 <= i < |s.players| && o.state.players[i].score != s.players[i].score)
            <==> s.roundRunning && Registered(s.players, from))
      && o.state.(players := s.players) == s
      && (!s.roundRunning ==> o.state == s)
      && o.sent == [BroadcastState(o.state)]
  {
    var o := OnMessage(s, from, Click);
    if s.roundRunning {
      forall i | 0 <= i < |s.players| && s.players[i].id == from
        ensures IndexOf(s.players, from) == Some(i)
      {
        IndexOfUnique(s.players, i);
      }
    }
  }

  /** A rename sets the sender's name to its first twenty characters and
      touches no id, no score and no other player; from an unknown id it is
      ignored, without a broadcast. */
  lemma SetNameSpec(s: State, from: Id, name: string)
    requires Inv(s)
    ensures var o := OnMessage(s, from, SetName(name));
      && (!Registered(s.players, from) ==> o.state == s && o.sent == [])
      && (Registered(s.players, from) ==>
            && |o.state.players| == |s.players|
            && (forall i :: 0 <= i < |s.players| ==>
                  && o.state.players[i].id == s.players[i].id
                  && o.state.players[i].score == s.players[i].score
                  && o.state.players[i].name ==
                       (if s.players[i].id == from then Truncate(name) else s.players[i].name))
            && o.state.(players := s.players) == s
            && o.sent == [BroadcastState(o.state)])
  {
    forall i | 0 <= i < |s.players| && s.players[i].id == from
      ensures IndexOf(s.players, from) == Some(i)
    {
      IndexOfUnique(s.players, i);
    }
  }

  /** Truncation keeps names of up to twenty characters and cuts longer ones
      to exactly twenty; cutting again changes nothing. */
  lemma TruncateSpec(s: string)
    ensures |s| <= MaxNameLength ==> Truncate(s) == s
    ensures |s| > MaxNameLength ==> |Truncate(s)| == MaxNameLength && Truncate(s) == s[..MaxNameLength]
    ensures Truncate(Truncate(s)) == Truncate(s)
  {
  }

  /** A delivery that, if it is a state broadcast, shows `st` and goes to
      exactly the players registered in `st`. */
  predicate ShowsState(d: Delivery, st: State) {
    d.msg.StateUpdate? ==> d.msg == StateUpdate(st.players, st.timeLeft) && d.to == Ids(st.players)
  }

  /** Every state broadcast of a step shows the registry and time left as
      the step leaves them, and goes to exactly the registered players. */
  lemma SnapshotsAreCurrent(s: State, e: Event)
    ensures var o := Step(s, e);
      forall k :: 0 <= k < |o.sent| ==> ShowsState(o.sent[k], o.state)
  {
    var o := Step(s, e);
    match e
    case Join(hint) =>
      assert o == OnJoin(s, hint);
    case Leave(id) =>
      assert o == OnLeave(s, id);
    case Receive(from, msg) =>
      assert o == OnMessage(s, from, msg);
    case Tick =>
      assert o == OnTick(s);
      if s.tickArmed && s.timeLeft - 1 <= 0 {
        assert ShowsState(o.sent[0], o.state);
        assert !o.sent[1].msg.StateUpdate?;
      }
    case GraceExpire =>
      assert o == OnGraceExpire(s);
    case BreakExpire =>
      assert o == OnBreakExpire(s);
  }

  // ---------------------------------------------------------------------------
  // The invariant
  // ---------------------------------------------------------------------------

  lemma InitInv()
    ensures Inv(Init())
  {
  }

  /** Every callback keeps the ids distinct and below the counter, the time
      left between 0 and the round length and positive while a round runs,
      and the interval live exactly while a round runs. */
  lemma StepPreservesInv(s: State, e: Event)
    requires Inv(s)
    ensures Inv(Step(s, e).state)
  {
    match e
    case Join(hint) => JoinKeepsInv(s, hint);
    case Leave(id) => LeaveKeepsInv(s, id);
    case Receive(from, msg) => MessageKeepsInv(s, from, msg);
    case Tick => TickKeepsInv(s);
    case GraceExpire => GraceKeepsInv(s);
    case BreakExpire => BreakKeepsInv(s);
  }

  lemma JoinKeepsInv(s: State, hint: Option<string>)
    requires Inv(s)
    ensures Inv(OnJoin(s, hint).state)
  {
    JoinSpec(s, hint);
    var ps := OnJoin(s, hint).state.players;
    assert forall i :: 0 <= i < |s.players| ==> ps[i] == s.players[i];
  }

  lemma LeaveKeepsInv(s: State, id: Id)
    requires Inv(s)
    ensures Inv(OnLeave(s, id).state)
  {
    RemoveKeepsUnique(s.players, id);
    var r := OnLeave(s, id).state.players;
    assert forall k :: 0 <= k < |r| ==> r[k] in s.players;
  }

  lemma MessageKeepsInv(s: State, from: Id, msg: Inbound)
    requires Inv(s)
    ensures Inv(OnMessage(s, from, msg).state)
  {
    match msg
    case Click => ClickSpec(s, from);
    case SetName(name) => SetNameSpec(s, from, name);
    case Start =>
    case Unrecognized =>
  }

  lemma TickKeepsInv(s: State)
    requires Inv(s)
    ensures Inv(OnTick(s).state)
  {
  }

  lemma GraceKeepsInv(s: State)
    requires Inv(s)
    ensures Inv(OnGraceExpire(s).state)
  {
  }

  lemma BreakKeepsInv(s: State)
    requires Inv(s)
    ensures Inv(OnBreakExpire(s).state)
  {
  }

  /** The invariant holds after any sequence of callbacks. */
  lemma {:induction false} RunPreservesInv(s: State, es: seq<Event>)
    requires Inv(s)
    ensures Inv(Run(s, es).state)
    decreases |es|
  {
    if |es| > 0 {
      StepPreservesInv(s, es[0]);
      RunPreservesInv(Step(s, es[0]).state, es[1..]);
    }
  }

  // ---------------------------------------------------------------------------
  // Starting a round
  // ---------------------------------------------------------------------------

  /** A started round has every score at zero, the full round ahead, the
      interval live, and the same players with the same ids and names in the
      same order; everybody is told. */
  lemma StartedRoundSpec(s: State, e: Event)
    requires StartsRound(Step(s, e))
    ensures var o := Step(s, e);
      && o.state.roundRunning && o.state.tickArmed
      && o.state.timeLeft == RoundDuration
      && |o.state.players| == |s.players|
      && (forall i :: 0 <= i < |s.players| ==>
            o.state.players[i] == Player(s.players[i].id, s.players[i].name, 0))
      && o.sent == [Broadcast(s.players, RoundStart(RoundDuration))]
  {
  }

  /** `start` starts a round exactly when none is running; otherwise it
      changes nothing and sends nothing. It does not look at the registry. */
  lemma StartGuard(s: State, from: Id)
    ensures StartsRound(OnMessage(s, from, Start)) <==> !s.roundRunning
    ensures s.roundRunning ==> OnMessage(s, from, Start) == Output(s, [])
    ensures !s.roundRunning ==> OnMessage(s, from, Start) == StartRound(s)
  {
    if !s.roundRunning {
      assert OnMessage(s, from, Start).sent[0].msg.RoundStart?;
    }
  }

  /** A message of any other `type` falls through every branch: it changes
      nothing and sends nothing. */
  lemma UnrecognizedIgnored(s: State, from: Id)
    ensures OnMessage(s, from, Unrecognized) == Output(s, [])
  {
  }

  /** A join-grace timeout starts a round exactly when one was armed, no
      round is running and somebody is registered. A firing uses its timeout
      up; one that starts no round changes nothing else and sends nothing. */
  lemma GraceGuard(s: State)
    ensures StartsRound(OnGraceExpire(s))
        <==> s.graceTimers > 0 && !s.roundRunning && |s.players| > 0
    ensures s.graceTimers > 0 ==> OnGraceExpire(s).state.graceTimers == s.graceTimers - 1
    ensures StartsRound(OnGraceExpire(s)) ==>
      OnGraceExpire(s) == StartRound(s.(graceTimers := s.graceTimers - 1))
    ensures !StartsRound(OnGraceExpire(s)) ==>
      OnGraceExpire(s)
        == Output(s.(graceTimers := if s.graceTimers > 0 then s.graceTimers - 1 else 0), [])
  {
    if s.graceTimers > 0 && !s.roundRunning && |s.players| > 0 {
      assert OnGraceExpire(s).sent[0].msg.RoundStart?;
    }
  }

  /** A break timeout starts a round exactly when one was armed and somebody
      is registered, even in the middle of a running round. A firing uses its
      timeout up; one that starts no round changes nothing else and sends
      nothing. */
  lemma BreakGuard(s: State)
    ensures StartsRound(OnBreakExpire(s)) <==> s.breakTimers > 0 && |s.players| > 0
    ensures s.breakTimers > 0 ==> OnBreakExpire(s).state.breakTimers == s.breakTimers - 1
    ensures StartsRound(OnBreakExpire(s)) ==>
      OnBreakExpire(s) == StartRound(s.(breakTimers := s.breakTimers - 1))
    ensures !StartsRound(OnBreakExpire(s)) ==>
      OnBreakExpire(s)
        == Output(s.(breakTimers := if s.breakTimers > 0 then s.breakTimers - 1 else 0), [])
  {
    if s.breakTimers > 0 && |s.players| > 0 {
      assert OnBreakExpire(s).sent[0].msg.RoundStart?;
    }
  }

  /** Joins, closes, clicks, renames, unknown messages and ticks never start
      a round. */
  lemma OtherEventsNeverStart(s: State, e: Event)
    requires !e.GraceExpire? && !e.BreakExpire? && !(e.Receive? && e.msg.Start?)
    ensures !StartsRound(Step(s, e))
  {
    var o := Step(s, e);
    match e
    case Join(hint) =>
      assert o == OnJoin(s, hint);
    case Leave(id) =>
      assert o == OnLeave(s, id);
    case Receive(from, msg) =>
      assert o == OnMessage(s, from, msg);
      assert |o.sent| <= 1;
      if |o.sent| == 1 {
        assert o.sent[0].msg.StateUpdate?;
      }
    case Tick =>
      assert o == OnTick(s);
      if s.tickArmed && s.timeLeft - 1 <= 0 {
        assert !o.sent[0].msg.RoundStart? && !o.sent[1].msg.RoundStart?;
      }
  }

  /** With nobody registered and no round running, no event the environment
      can deliver other than a join starts a round or registers anybody. */
  lemma DormantWhileEmpty(s: State, e: Event)
    requires Inv(s) && |s.players| == 0 && !s.roundRunning
    requires Enabled(s, e) && !e.Join?
    ensures !StartsRound(Step(s, e))
    ensures !Step(s, e).state.roundRunning && |Step(s, e).state.players| == 0
  {
  }

  // ---------------------------------------------------------------------------
  // The countdown
  // ---------------------------------------------------------------------------

  /** A tick during a round takes exactly one second off and broadcasts the
      state; when that leaves no time the round ends: the interval stops,
      the result of `endRound` is announced and a break timeout is armed. */
  lemma TickSpec(s: State)
    requires Inv(s) && s.roundRunning
    ensures var o := OnTick(s);
      && o.state.timeLeft == s.timeLeft - 1
      && (o.state.roundRunning <==> s.timeLeft > 1)
      && o.state.tickArmed == o.state.roundRunning
      && o.state.players == s.players
      && o.state.nextId == s.nextId && o.state.graceTimers == s.graceTimers
      && o.sent[0] == BroadcastState(o.state)
      && (o.state.roundRunning ==> |o.sent| == 1 && o.state.breakTimers == s.breakTimers)
      && (!o.state.roundRunning ==>
            && |o.sent| == 2
            && o.sent[1] == Broadcast(s.players, GameOver(RoundOutcome(s.players).winner,
                                                          RoundOutcome(s.players).scores))
            && o.state.breakTimers == s.breakTimers + 1)
  {
  }

  /** Outside a round no interval is live, so nothing ticks. */
  lemma NoTickWhileIdle(s: State)
    requires Inv(s) && !s.roundRunning
    ensures OnTick(s) == Output(s, [])
  {
  }

  /** `n` ticks into a round with `t` seconds left, `t - n` are left, and the
      round is still running exactly when `n < t`. */
  lemma {:induction false} CountDown(s: State, n: nat)
    requires Inv(s) && s.roundRunning && n <= s.timeLeft
    ensures Inv(Ticks(s, n))
    ensures Ticks(s, n).timeLeft == s.timeLeft - n
    ensures Ticks(s, n).roundRunning <==> n < s.timeLeft
    ensures Ticks(s, n).players == s.players
    ensures Ticks(s, n).breakTimers == s.breakTimers + (if n == s.timeLeft then 1 else 0)
    decreases n
  {
    if n > 0 {
      var s1 := OnTick(s).state;
      TickSpec(s);
      StepPreservesInv(s, Tick);
      if s1.roundRunning {
        CountDown(s1, n - 1);
      } else {
        assert Ticks(s1, n - 1) == s1;
      }
    }
  }

  /** A round that nothing interrupts ends on its `RoundDuration`-th tick and
      not before. */
  lemma RoundLastsRoundDuration(s: State, e: Event)
    requires Inv(s) && StartsRound(Step(s, e))
    ensures Ticks(Step(s, e).state, RoundDuration - 1).roundRunning
    ensures !Ticks(Step(s, e).state, RoundDuration).roundRunning
  {
    StepPreservesInv(s, e);
    StartedRoundSpec(s, e);
    CountDown(Step(s, e).state, RoundDuration - 1);
    CountDown(Step(s, e).state, RoundDuration);
  }

  /** One player joins, the grace timeout starts a round, it runs for the
      whole round length, and the break timeout starts the next one; had
      the player left during the break, no round would start. */
  lemma JoinPlayRestart()
    ensures var s1 := OnJoin(Init(), None).state;
      var s2 := OnGraceExpire(s1).state;
      var s3 := Ticks(s2, RoundDuration);
      && s2.roundRunning && s2.timeLeft == RoundDuration
      && !s3.roundRunning && |s3.players| == 1 && s3.breakTimers == 1
      && OnBreakExpire(s3).state.roundRunning
      && !OnBreakExpire(OnLeave(s3, 1).state).state.roundRunning
  {
    var s2 := OnGraceExpire(OnJoin(Init(), None).state).state;
    FirstRound();
    CountDown(s2, RoundDuration);
    BreakRestartsUnlessLeft(Ticks(s2, RoundDuration));
  }

  /** After the first round, the break timeout starts the next one unless
      its only player, player 1, has left. */
  lemma BreakRestartsUnlessLeft(s: State)
    requires Inv(s) && !s.roundRunning && s.breakTimers == 1
    requires |s.players| == 1 && s.players[0].id == 1
    ensures OnBreakExpire(s).state.roundRunning
    ensures !OnBreakExpire(OnLeave(s, 1).state).state.roundRunning
  {
    LeaveSpec(s, 1);
  }

  /** The first join and its grace timeout start a round for player 1. */
  lemma FirstRound()
    ensures var s2 := OnGraceExpire(OnJoin(Init(), None).state).state;
      && Inv(s2) && s2.roundRunning && s2.timeLeft == RoundDuration
      && |s2.players| == 1 && s2.players[0].id == 1 && s2.breakTimers == 0
  {
    var s1 := OnJoin(Init(), None).state;
    JoinSpec(Init(), None);
    JoinKeepsInv(Init(), None);
    GraceKeepsInv(s1);
  }

  /** The break timeout does not look at `roundRunning`: when a player
      sends `start` during a break (a state `JoinPlayRestart` reaches), the
      pending break timeout later restarts the round that `start` began,
      with the full time ahead and the points scored so far wiped. */
  lemma BreakTimeoutRestartsRunningRound(s: State)
    requires Inv(s) && !s.roundRunning && s.breakTimers > 0 && |s.players| > 0
    ensures var p := s.players[0].id;
      var s1 := Step(s, Receive(p, Start)).state;
      var s2 := Step(Step(s1, Receive(p, Click)).state, Tick).state;
      var s3 := Step(s2, BreakExpire).state;
      && s2.roundRunning && s2.timeLeft == RoundDuration - 1
      && |s2.players| > 0 && s2.players[0].score == 1
      && s3.roundRunning && s3.timeLeft == RoundDuration
      && |s3.players| > 0 && s3.players[0].score == 0
  {
    var p := s.players[0].id;
    var s1 := Step(s, Receive(p, Start)).state;
    StartGuard(s, p);
    StartedRoundSpec(s, Receive(p, Start));
    StepPreservesInv(s, Receive(p, Start));
    ClickSpec(s1, p);
    var s1' := Step(s1, Receive(p, Click)).state;
    StepPreservesInv(s1, Receive(p, Click));
    TickSpec(s1');
    var s2 := Step(s1', Tick).state;
    BreakGuard(s2);
    StartedRoundSpec(s2, BreakExpire);
  }

  // ---------------------------------------------------------------------------
  // Ids are never reused
  // ---------------------------------------------------------------------------

  /** The ids told to newcomers, in the order they were sent. */
  function AssignedIds(sent: seq<Delivery>): seq<Id>
    decreases |sent|
  {
    if |sent| == 0 then []
    else (if sent[0].msg.AssignId? then [sent[0].msg.id] else []) + AssignedIds(sent[1..])
  }

  lemma {:induction false} AssignedIdsAppend(a: seq<Delivery>, b: seq<Delivery>)
    ensures AssignedIds(a + b) == AssignedIds(a) + AssignedIds(b)
    decreases |a|
  {
    if |a| == 0 {
      assert a + b == b;
    } else {
      var head := if a[0].msg.AssignId? then [a[0].msg.id] else [];
      assert (a + b)[0] == a[0];
      assert (a + b)[1..] == a[1..] + b;
      calc {
        AssignedIds(a + b);
        head + AssignedIds(a[1..] + b);
        { AssignedIdsAppend(a[1..], b); }
        head + (AssignedIds(a[1..]) + AssignedIds(b));
      }
    }
  }

  /** A join hands out `nextId` and advances the counter; no other event
      hands out an id or moves the counter. */
  lemma StepAssigns(s: State, e: Event)
    ensures AssignedIds(Step(s, e).sent) == if e.Join? then [s.nextId] else []
    ensures Step(s, e).state.nextId == if e.Join? then s.nextId + 1 else s.nextId
  {
    var sent := Step(s, e).sent;
    match e
    case Join(hint) =>
      assert sent == OnJoin(s, hint).sent;
      NoneAssigned(sent[1..]);
    case Leave(id) =>
      NoneAssigned(OnLeave(s, id).sent);
    case Receive(from, msg) =>
      NoneAssigned(OnMessage(s, from, msg).sent);
    case Tick =>
      NoneAssigned(OnTick(s).sent);
    case GraceExpire =>
      NoneAssigned(OnGraceExpire(s).sent);
    case BreakExpire =>
      NoneAssigned(OnBreakExpire(s).sent);
  }

  lemma {:induction false} NoneAssigned(sent: seq<Delivery>)
    requires forall k :: 0 <= k < |sent| ==> !sent[k].msg.AssignId?
    ensures AssignedIds(sent) == []
    decreases |sent|
  {
    if |sent| > 0 {
      NoneAssigned(sent[1..]);
    }
  }

  /** Over any run, the ids handed out strictly increase and lie between
      the counter's start and end values, so no id is handed out twice. */
  lemma {:induction false} IdsNeverReused(s: State, es: seq<Event>)
    ensures var o := Run(s, es); var a := AssignedIds(o.sent);
      && (forall i, j :: 0 <= i < j < |a| ==> a[i] < a[j])
      && (forall i :: 0 <= i < |a| ==> s.nextId <= a[i] < o.state.nextId)
      && s.nextId <= o.state.nextId
    decreases |es|
  {
    if |es| > 0 {
      var o1 := Step(s, es[0]);
      StepAssigns(s, es[0]);
      IdsNeverReused(o1.state, es[1..]);
      AssignedIdsAppend(o1.sent, Run(o1.state, es[1..]).sent);
    }
  }

  /** From a state satisfying the invariant, no id handed out during a run
      equals the id of a player registered before it. */
  lemma FreshAgainstRegistry(s: State, es: seq<Event>)
    requires Inv(s)
    ensures var a := AssignedIds(Run(s, es).sent);
      forall i, k :: 0 <= i < |a| && 0 <= k < |s.players| ==> a[i] != s.players[k].id
  {
    IdsNeverReused(s, es);
  }
}

=== FILE: registry.dfy ===
/** The player registry of the game server: a JavaScript `Map` from id to
    player record, modelled as a sequence in insertion order (the order in
    which a `Map` iterates). Ids are the numbers handed out by the `nextId`
    counter; the source renders them as decimal strings, which `Decimal`
    models. */
module Registry {
  import opened Wrappers

  type Id = nat

  /** Display names are cut to this many characters. */
  const MaxNameLength: nat := 20

  /** A registry entry; the socket handle of the source is not modelled. */
  datatype Player = Player(id: Id, name: string, score: nat)

  // ---------------------------------------------------------------------------
  // Names
  // ---------------------------------------------------------------------------

  /** `String.prototype.slice(0, 20)`: the first twenty characters. */
  function Truncate(s: string): (r: string)
    ensures r <= s
    ensures |r| == if |s| < MaxNameLength then |s| else MaxNameLength
  {
    if |s| <= MaxNameLength then s else s[..MaxNameLength]
  }

  predicate IsDigits(s: string) {
    forall i :: 0 <= i < |s| ==> '0' <= s[i] <= '9'
  }

  function Digit(d: nat): (c: char)
    requires d < 10
    ensures '0' <= c <= '9'
    ensures c as int - '0' as int == d
  {
    ('0' as int + d) as char
  }

  /** `String(n)` for a non-negative integer: its decimal digits, without
      leading zeros. */
  function Decimal(n: nat): (r: string)
    ensures |r| >= 1
    ensures IsDigits(r)
    ensures r[0] == '0' ==> n == 0
    decreases n
  {
    if n < 10 then [Digit(n)] else Decimal(n / 10) + [Digit(n % 10)]
  }

  /** The number a string of decimal digits denotes. */
  function DigitsValue(s: string): nat
    requires IsDigits(s)
    decreases |s|
  {
    if |s| == 0 then 0
    else 10 * DigitsValue(s[..|s| - 1]) + (s[|s| - 1] as int - '0' as int)
  }

  /** Reading back the rendering of an id gives the id. */
  lemma {:induction false} DecimalRoundTrip(n: nat)
    ensures DigitsValue(Decimal(n)) == n
  {
    if n >= 10 {
      DecimalRoundTrip(n / 10);
      var r := Decimal(n);
      assert r[..|r| - 1] == Decimal(n / 10);
    }
  }

  /** The name of a player who joined without a usable hint. */
  function DefaultName(id: Id): string {
    "Player" + Decimal(id)
  }

  /** Two players who joined without a hint never share a default name. */
  lemma DefaultNameInjective(a: Id, b: Id)
    requires DefaultName(a) == DefaultName(b)
    ensures a == b
  {
    assert Decimal(a) == DefaultName(a)[6..];
    assert Decimal(b) == DefaultName(b)[6..];
    DecimalRoundTrip(a);
    DecimalRoundTrip(b);
  }

  /** The name given at connection time: the hint cut to twenty characters
      when it is present and non-empty (an empty string is falsy), otherwise
      "Player" followed by the id. */
  function JoinName(hint: Option<string>, id: Id): (r: string)
    ensures hint.Some? && hint.value != "" ==> r == Truncate(hint.value)
    ensures hint.Some? && hint.value != "" ==>
      r <= hint.value && |r| == if |hint.value| < MaxNameLength then |hint.value| else MaxNameLength
    ensures hint.None? || hint.value == "" ==> r == DefaultName(id)
    ensures hint.None? || hint.value == "" ==>
      && |r| > 6 && r[..6] == "Player"
      && IsDigits(r[6..]) && DigitsValue(r[6..]) == id
      && (r[6] == '0' ==> id == 0)
  {
    if hint.Some? && hint.value != "" then Truncate(hint.value)
    else
      DecimalRoundTrip(id);
      assert DefaultName(id)[6..] == Decimal(id);
      DefaultName(id)
  }

  /** Players who join without a usable hint get pairwise different names. */
  lemma DefaultJoinNamesDistinct(hint: Option<string>, a: Id, b: Id)
    requires hint.None? || hint.value == ""
    requires a != b
    ensures JoinName(hint, a) != JoinName(hint, b)
  {
    if JoinName(hint, a) == JoinName(hint, b) {
      DefaultNameInjective(a, b);
    }
  }

  // ---------------------------------------------------------------------------
  // The id-keyed map
  // ---------------------------------------------------------------------------

  function Ids(ps: seq<Player>): (r: seq<Id>)
    ensures |r| == |ps|
    ensures forall i :: 0 <= i < |ps| ==> r[i] == ps[i].id
  {
    seq(|ps|, i requires 0 <= i < |ps| => ps[i].id)
  }

  predicate Registered(ps: seq<Player>, id: Id) {
    exists i :: 0 <= i < |ps| && ps[i].id == id
  }

  /** A `Map` has one entry per key. */
  predicate UniqueIds(ps: seq<Player>) {
    forall i, j :: 0 <= i < j < |ps| ==> ps[i].id != ps[j].id
  }

  /** `players.get(id)`: the position of the entry with that id. */
  function IndexOf(ps: seq<Player>, id: Id): (r: Option<nat>)
    ensures r.Some? ==> r.value < |ps| && ps[r.value].id == id
    ensures r.Some? ==> forall j :: 0 <= j < r.value ==> ps[j].id != id
    ensures r.None? <==> !Registered(ps, id)
    decreases |ps|
  {
    if |ps| == 0 then None
    else if ps[0].id == id then Some(0)
    else
      match IndexOf(ps[1..], id)
      case None =>
        assert forall j :: 1 <= j < |ps| ==> ps[j] == ps[1..][j - 1];
        None
      case Some(k) => Some(k + 1)
  }

  /** With one entry per id, the entry found is the only one with that id. */
  lemma IndexOfUnique(ps: seq<Player>, i: nat)
    requires UniqueIds(ps)
    requires i < |ps|
    ensures IndexOf(ps, ps[i].id) == Some(i)
  {
  }

  /** `players.set(p.id, p)`: replaces the entry in place when the id is
      present, appends otherwise. */
  function Put(ps: seq<Player>, p: Player): seq<Player> {
    match IndexOf(ps, p.id)
    case Some(i) => ps[i := p]
    case None => ps + [p]
  }

  /** `players.delete(id)`: drops one entry when the id is present. */
  function Remove(ps: seq<Player>, id: Id): (r: seq<Player>)
    ensures Registered(ps, id) ==> |r| == |ps| - 1
    ensures !Registered(ps, id) ==> r == ps
    ensures forall p :: p in r ==> p in ps
  {
    match IndexOf(ps, id)
    case Some(i) => ps[..i] + ps[i + 1..]
    case None => ps
  }

  /** Reference definition of deletion: every entry whose id differs, in
      the order they were registered. */
  function Without(ps: seq<Player>, id: Id): (r: seq<Player>)
    ensures forall p :: p in r <==> p in ps && p.id != id
    ensures |r| <= |ps|
    decreases |ps|
  {
    if |ps| == 0 then []
    else (if ps[0].id == id then [] else [ps[0]]) + Without(ps[1..], id)
  }

  lemma {:induction false} WithoutAbsent(ps: seq<Player>, id: Id)
    requires !Registered(ps, id)
    ensures Without(ps, id) == ps
    decreases |ps|
  {
    if |ps| > 0 {
      assert !Registered(ps[1..], id) by {
        assert forall j :: 0 <= j < |ps| - 1 ==> ps[1..][j] == ps[j + 1];
      }
      WithoutAbsent(ps[1..], id);
      assert ps == [ps[0]] + ps[1..];
    }
  }

  lemma TailUnique(ps: seq<Player>)
    requires |ps| > 0 && UniqueIds(ps)
    ensures UniqueIds(ps[1..])
    ensures !Registered(ps[1..], ps[0].id)
  {
    assert forall j :: 0 <= j < |ps| - 1 ==> ps[1..][j] == ps[j + 1];
  }

  /** On a registry with one entry per id, deleting by position and the
      reference definition agree: exactly the entries with another id stay,
      in their order. */
  lemma {:induction false} RemoveIsWithout(ps: seq<Player>, id: Id)
    requires UniqueIds(ps)
    ensures Remove(ps, id) == Without(ps, id)
    decreases |ps|
  {
    if |ps| > 0 {
      var tail := ps[1..];
      TailUnique(ps);
      if ps[0].id == id {
        WithoutAbsent(tail, id);
      } else {
        RemoveIsWithout(tail, id);
        RemoveCons(ps, id);
      }
    }
  }

  /** Deleting an id other than the first entry's keeps the first entry. */
  lemma RemoveCons(ps: seq<Player>, id: Id)
    requires |ps| > 0 && ps[0].id != id
    ensures Remove(ps, id) == [ps[0]] + Remove(ps[1..], id)
  {
    var tail := ps[1..];
    match IndexOf(tail, id)
    case None =>
    case Some(k) =>
      calc {
        Remove(ps, id);
        ps[..k + 1] + ps[k + 2..];
        { assert ps[..k + 1] == [ps[0]] + tail[..k]; assert ps[k + 2..] == tail[k + 1..]; }
        [ps[0]] + (tail[..k] + tail[k + 1..]);
      }
  }

  /** Deleting an entry keeps the ids pairwise distinct. */
  lemma RemoveKeepsUnique(ps: seq<Player>, id: Id)
    requires UniqueIds(ps)
    ensures UniqueIds(Remove(ps, id))
  {
    match IndexOf(ps, id)
    case None =>
    case Some(i) =>
      var r := Remove(ps, id);
      assert forall k :: 0 <= k < |r| ==> r[k] == ps[if k < i then k else k + 1];
  }

  /** The score update of a click, applied to the entry with that id. */
  function AddPoint(ps: seq<Player>, id: Id): (r: seq<Player>)
    ensures |r| == |ps|
    ensures forall i :: 0 <= i < |ps| ==> r[i].id == ps[i].id && r[i].name == ps[i].name
    ensures forall i :: 0 <= i < |ps| && IndexOf(ps, id) != Some(i) ==> r[i] == ps[i]
    ensures IndexOf(ps, id).Some? ==>
      r[IndexOf(ps, id).value].score == ps[IndexOf(ps, id).value].score + 1
    ensures IndexOf(ps, id).None? ==> r == ps
  {
    match IndexOf(ps, id)
    case Some(i) => ps[i := ps[i].(score := ps[i].score + 1)]
    case None => ps
  }

  /** `set_name`: the entry with that id gets the truncated name. */
  function Rename(ps: seq<Player>, id: Id, name: string): (r: seq<Player>)
    ensures |r| == |ps|
    ensures forall i :: 0 <= i < |ps| ==> r[i].id == ps[i].id && r[i].score == ps[i].score
    ensures forall i :: 0 <= i < |ps| && IndexOf(ps, id) != Some(i) ==> r[i] == ps[i]
    ensures IndexOf(ps, id).Some? ==> r[IndexOf(ps, id).value].name == Truncate(name)
    ensures IndexOf(ps, id).None? ==> r == ps
  {
    match IndexOf(ps, id)
    case Some(i) => ps[i := ps[i].(name := Truncate(name))]
    case None => ps
  }

  /** The score reset at the start of a round. */
  function ResetScores(ps: seq<Player>): (r: seq<Player>)
    ensures |r| == |ps|
    ensures forall i :: 0 <= i < |ps| ==>
      r[i].id == ps[i].id && r[i].name == ps[i].name && r[i].score == 0
  {
    seq(|ps|, i requires 0 <= i < |ps| => ps[i].(score := 0))
  }
}

=== FILE: scoring.dfy ===
/** The round-end result computed by `endRound`: the highest score, the
    players holding it, how the winner field is encoded, and the map from
    name to final score. */
module Scoring {
  import opened Wrappers
  import opened Registry

  /** The `winner` field of a `game_over` message: a bare name when exactly
      one player holds the top score, otherwise an array of names (empty
      when nobody is registered). */
  datatype Winner = Name(name: string) | Names(names: seq<string>)

  datatype Outcome = Outcome(winner: Winner, scores: map<string, nat>)

  /** The highest score, scanning in registry order; `None` stands for the
      `-Infinity` starting value that survives only an empty registry. */
  function MaxScore(ps: seq<Player>): (r: Option<nat>)
    ensures r.None? <==> |ps| == 0
    ensures r.Some? ==> exists i :: 0 <= i < |ps| && ps[i].score == r.value
    ensures r.Some? ==> forall i :: 0 <= i < |ps| ==> ps[i].score <= r.value
    decreases |ps|
  {
    if |ps| == 0 then None
    else
      var last := ps[|ps| - 1].score;
      match MaxScore(ps[..|ps| - 1])
      case None => Some(last)
      case Some(m) => Some(if last > m then last else m)
  }

  /** The players whose score is `m`, in registry order. */
  function WithScore(ps: seq<Player>, m: nat): (r: seq<Player>)
    ensures forall p :: p in r <==> p in ps && p.score == m
    ensures |r| <= |ps|
    decreases |ps|
  {
    if |ps| == 0 then []
    else (if ps[0].score == m then [ps[0]] else []) + WithScore(ps[1..], m)
  }

  /** Selecting by score commutes with concatenation, so the winners keep
      the relative order in which they registered. */
  lemma {:induction false} WithScoreAppend(a: seq<Player>, b: seq<Player>, m: nat)
    ensures WithScore(a + b, m) == WithScore(a, m) + WithScore(b, m)
    decreases |a|
  {
    if |a| > 0 {
      assert (a + b)[1..] == a[1..] + b;
      WithScoreAppend(a[1..], b, m);
    } else {
      assert a + b == b;
    }
  }

  /** The players holding the top score: every player whose score equals
      the maximum, in registry order. */
  function Winners(ps: seq<Player>): seq<Player> {
    match MaxScore(ps)
    case None => []
    case Some(m) => WithScore(ps, m)
  }

  /** There are winners exactly when somebody is registered; every winner is
      registered and scores at least as much as every player; and a player
      is a winner exactly when nobody scores more. */
  lemma WinnersSpec(ps: seq<Player>)
    ensures var r := Winners(ps);
      && (|r| == 0 <==> |ps| == 0)
      && (forall w :: w in r ==> w in ps)
      && (forall w, i :: w in r && 0 <= i < |ps| ==> ps[i].score <= w.score)
      && (forall i :: 0 <= i < |ps| ==>
            (ps[i] in r <==> forall j :: 0 <= j < |ps| ==> ps[j].score <= ps[i].score))
  {
    match MaxScore(ps)
    case None =>
    case Some(m) =>
      var i :| 0 <= i < |ps| && ps[i].score == m;
      assert ps[i] in WithScore(ps, m);
  }

  function NamesOf(ps: seq<Player>): (r: seq<string>)
    ensures |r| == |ps|
    ensures forall i :: 0 <= i < |ps| ==> r[i] == ps[i].name
  {
    seq(|ps|, i requires 0 <= i < |ps| => ps[i].name)
  }

  lemma NamesOfAppend(a: seq<Player>, b: seq<Player>)
    ensures NamesOf(a + b) == NamesOf(a) + NamesOf(b)
  {
  }

  /** `winnerNames.length === 1 ? winnerNames[0] : winnerNames`. */
  function Encode(names: seq<string>): Winner {
    if |names| == 1 then Name(names[0]) else Names(names)
  }

  /** No later entry carries the same name as entry `i`. */
  predicate LastWithName(ps: seq<Player>, i: nat)
    requires i < |ps|
  {
    forall j :: i < j < |ps| ==> ps[j].name != ps[i].name
  }

  /** `scores[p.name] = p.score` for every player, in registry order. */
  function FinalScores(ps: seq<Player>): map<string, nat>
    decreases |ps|
  {
    if |ps| == 0 then map[]
    else FinalScores(ps[..|ps| - 1])[ps[|ps| - 1].name := ps[|ps| - 1].score]
  }

  /** Every registered name is a key of the score object, every key is a
      registered name, and a name shared by several players keeps the score
      of the one registered last. */
  lemma {:induction false} FinalScoresSpec(ps: seq<Player>)
    ensures var r := FinalScores(ps);
      && (forall i :: 0 <= i < |ps| ==> ps[i].name in r)
      && (forall n :: n in r ==> exists i :: 0 <= i < |ps| && ps[i].name == n)
      && (forall i :: 0 <= i < |ps| && LastWithName(ps, i) ==> r[ps[i].name] == ps[i].score)
    decreases |ps|
  {
    if |ps| > 0 {
      var init := ps[..|ps| - 1];
      FinalScoresSpec(init);
      assert forall i :: 0 <= i < |init| ==> init[i] == ps[i];
      ScoresSnoc(ps, FinalScores(init));
    }
  }

  /** One more assignment `scores[p.name] = p.score` extends the score
      object of the players before `p` to the score object including `p`. */
  lemma ScoresSnoc(ps: seq<Player>, prev: map<string, nat>)
    requires |ps| > 0
    requires forall i :: 0 <= i < |ps| - 1 ==> ps[i].name in prev
    requires forall n :: n in prev ==> exists i :: 0 <= i < |ps| - 1 && ps[i].name == n
    requires forall i :: 0 <= i < |ps| - 1 && LastWithName(ps[..|ps| - 1], i) ==> prev[ps[i].name] == ps[i].score
    ensures var r := prev[ps[|ps| - 1].name := ps[|ps| - 1].score];
      && (forall i :: 0 <= i < |ps| ==> ps[i].name in r)
      && (forall n :: n in r ==> exists i :: 0 <= i < |ps| && ps[i].name == n)
      && (forall i :: 0 <= i < |ps| && LastWithName(ps, i) ==> r[ps[i].name] == ps[i].score)
  {
    var init := ps[..|ps| - 1];
    var last := ps[|ps| - 1];
    var r := prev[last.name := last.score];
    forall i | 0 <= i < |ps| && LastWithName(ps, i)
      ensures r[ps[i].name] == ps[i].score
    {
      if i < |ps| - 1 {
        assert ps[i].name != last.name;
        assert LastWithName(init, i) by {
          forall j | i < j < |init|
            ensures init[j].name != init[i].name
          {
            assert init[j] == ps[j];
          }
        }
      }
    }
  }

  /** The `game_over` payload of `endRound`. */
  function RoundOutcome(ps: seq<Player>): Outcome {
    Outcome(Encode(NamesOf(Winners(ps))), FinalScores(ps))
  }

  /** An empty registry reports an empty winner array; a single top scorer
      is reported by bare name; two or more tied top scorers are reported as
      the array of their names in registry order. */
  lemma RoundOutcomeSpec(ps: seq<Player>)
    ensures var o := RoundOutcome(ps);
      && (|ps| == 0 ==> o.winner == Names([]))
      && (o.winner.Name? <==> |Winners(ps)| == 1)
      && (o.winner.Name? ==> o.winner.name == Winners(ps)[0].name)
      && (o.winner.Names? ==> o.winner.names == NamesOf(Winners(ps)) && |o.winner.names| != 1)
  {
  }

  /** The first loop of `endRound`: the maximum, starting from "no value"
      (the source's `-Infinity`). */
  method FindMax(ps: seq<Player>) returns (best: Option<nat>)
    ensures best == MaxScore(ps)
    ensures best.None? <==> |ps| == 0
    ensures best.Some? ==> exists i :: 0 <= i < |ps| && ps[i].score == best.value
    ensures best.Some? ==> forall i :: 0 <= i < |ps| ==> ps[i].score <= best.value
  {
    best := None;
    for i := 0 to |ps|
      invariant best == MaxScore(ps[..i])
    {
      assert ps[..i + 1][..i] == ps[..i];
      if best.None? || ps[i].score > best.value {
        best := Some(ps[i].score);
      }
    }
    assert ps[..|ps|] == ps;
  }

  /** The filter of `endRound`: the names of the players whose score is
      `m`, in registry order. */
  method CollectNames(ps: seq<Player>, m: nat) returns (names: seq<string>)
    ensures names == NamesOf(WithScore(ps, m))
  {
    names := [];
    for i := 0 to |ps|
      invariant names == NamesOf(WithScore(ps[..i], m))
    {
      assert ps[..i + 1] == ps[..i] + [ps[i]];
      WithScoreAppend(ps[..i], [ps[i]], m);
      var single := if ps[i].score == m then [ps[i]] else [];
      assert WithScore([ps[i]], m) == single;
      NamesOfAppend(WithScore(ps[..i], m), single);
      if ps[i].score == m {
        names := names + [ps[i].name];
      }
    }
    assert ps[..|ps|] == ps;
  }

  /** The score loop of `endRound`: later players overwrite earlier ones
      that share their name. */
  method FillScores(ps: seq<Player>) returns (scores: map<string, nat>)
    ensures scores == FinalScores(ps)
    ensures forall i :: 0 <= i < |ps| ==> ps[i].name in scores
    ensures forall n :: n in scores ==> exists i :: 0 <= i < |ps| && ps[i].name == n
    ensures forall i :: 0 <= i < |ps| && LastWithName(ps, i) ==> scores[ps[i].name] == ps[i].score
  {
    FinalScoresSpec(ps);
    scores := map[];
    for i := 0 to |ps|
      invariant scores == FinalScores(ps[..i])
    {
      assert ps[..i + 1][..i] == ps[..i];
      scores := scores[ps[i].name := ps[i].score];
    }
    assert ps[..|ps|] == ps;
  }

  /** `endRound`'s result computed by its loops as written agrees with the
      reference outcome. */
  method ComputeOutcome(ps: seq<Player>) returns (winner: Winner, scores: map<string, nat>)
    ensures Outcome(winner, scores) == RoundOutcome(ps)
  {
    var best := FindMax(ps);
    var names: seq<string> := [];
    if best.Some? {
      names := CollectNames(ps, best.value);
    }
    winner := if |names| == 1 then Name(names[0]) else Names(names);
    scores := FillScores(ps);
  }

  // ---------------------------------------------------------------------------
  // Round-end examples
  // ---------------------------------------------------------------------------

  /** Two players tied on top are both reported, as an array. */
  lemma TiedWinnersExample()
    ensures RoundOutcome([Player(1, "A", 5), Player(2, "B", 5), Player(3, "C", 3)]).winner
         == Names(["A", "B"])
  {
    var ps := [Player(1, "A", 5), Player(2, "B", 5), Player(3, "C", 3)];
    assert MaxScore(ps) == Some(5);
    assert WithScore(ps[2..], 5) == [] by {
      assert ps[2..][1..] == [];
    }
    assert WithScore(ps[1..], 5) == [ps[1]] by {
      assert ps[1..][1..] == ps[2..];
    }
    assert WithScore(ps, 5) == [ps[0], ps[1]];
    assert NamesOf([ps[0], ps[1]]) == ["A", "B"];
  }

  /** A unique top score is reported as a bare name. */
  lemma SingleWinnerExample()
    ensures RoundOutcome([Player(1, "A", 5), Player(2, "B", 3)]).winner == Name("A")
  {
    var ps := [Player(1, "A", 5), Player(2, "B", 3)];
    assert MaxScore(ps) == Some(5);
    assert WithScore(ps, 5) == [ps[0]];
  }

  /** A player alone wins even with no points. */
  lemma SoloZeroScoreWins()
    ensures RoundOutcome([Player(1, "A", 0)]).winner == Name("A")
  {
    var ps := [Player(1, "A", 0)];
    assert WithScore(ps, 0) == [ps[0]];
  }
}

=== FILE: server.dfy ===
/** The game server's state machine: one step per callback. Node runs each
    callback (a connection, a message, a close, a timer firing) to completion
    on one thread, so each is an atomic transition of `State`, producing the
    messages it sends. Timers are not clocks here: arming one records that it
    is pending, and its firing is an event of its own. */
module Server {
  import opened Wrappers
  import opened Registry
  import opened Scoring

  /** Seconds in a round. */
  const RoundDuration: nat := 30

  datatype State = State(
    players: seq<Player>,  // the registry, in insertion order
    nextId: Id,            // the id the next connection receives
    timeLeft: int,         // seconds left in the round
    roundRunning: bool,
    tickArmed: bool,       // the one-second interval is live
    graceTimers: nat,      // join-grace timeouts armed and not yet fired
    breakTimers: nat)      // break timeouts armed and not yet fired

  /** The module-level variables at process start. */
  function Init(): State {
    State([], 1, 0, false, false, 0, 0)
  }

  /** An inbound client message, already parsed; `Unrecognized` is any
      other `type`. */
  datatype Inbound = Click | SetName(name: string) | Start | Unrecognized

  datatype Event =
    | Join(nameHint: Option<string>)   // a connection opens
    | Leave(id: Id)                    // that connection closes
    | Receive(from: Id, msg: Inbound)  // a message on connection `from`
    | Tick                             // the round interval fires
    | GraceExpire                      // a join-grace timeout fires
    | BreakExpire                      // a break timeout fires

  datatype Message =
    | AssignId(id: Id, name: string)
    | StateUpdate(players: seq<Player>, timeLeft: int)
    | RoundStart(timeLeft: int)
    | GameOver(winner: Winner, scores: map<string, nat>)

  /** A message and the ids of the connections it is sent to. */
  datatype Delivery = Delivery(to: seq<Id>, msg: Message)

  datatype Output = Output(state: State, sent: seq<Delivery>)

  /** `broadcast`: every registered player is a recipient. */
  function Broadcast(ps: seq<Player>, msg: Message): (d: Delivery)
    ensures |d.to| == |ps|
    ensures forall i :: 0 <= i < |ps| ==> d.to[i] == ps[i].id
    ensures d.msg == msg
  {
    Delivery(Ids(ps), msg)
  }

  /** `broadcastState`: a snapshot of every player and the time left, sent
      to every player. */
  function BroadcastState(s: State): Delivery {
    Broadcast(s.players, StateUpdate(s.players, s.timeLeft))
  }

  /** `startRound`: zero every score, restart the countdown, announce the
      round and (re)arm the interval, cancelling a live one first. */
  function StartRound(s: State): (o: Output)
    ensures o.state.roundRunning && o.state.tickArmed
    ensures o.state.timeLeft == RoundDuration
    ensures |o.state.players| == |s.players|
    ensures forall i :: 0 <= i < |s.players| ==>
      o.state.players[i] == Player(s.players[i].id, s.players[i].name, 0)
    ensures o.state.nextId == s.nextId
    ensures o.state.graceTimers == s.graceTimers && o.state.breakTimers == s.breakTimers
    ensures o.sent == [Broadcast(s.players, RoundStart(RoundDuration))]
  {
    var s' := s.(players := ResetScores(s.players), timeLeft := RoundDuration,
                 roundRunning := true, tickArmed := true);
    assert Ids(s'.players) == Ids(s.players);
    Output(s', [Broadcast(s'.players, RoundStart(s'.timeLeft))])
  }

  /** `endRound`, entered from the last tick with the interval already
      cleared: the round stops, the result is announced and a break timeout
      is armed. */
  function EndRound(s: State): Output {
    var s' := s.(roundRunning := false, breakTimers := s.breakTimers + 1);
    var result := RoundOutcome(s.players);
    Output(s', [Broadcast(s.players, GameOver(result.winner, result.scores))])
  }

  /** The interval callback. */
  function OnTick(s: State): Output {
    if !s.tickArmed then Output(s, [])
    else
      var s1 := s.(timeLeft := s.timeLeft - 1);
      if s1.timeLeft <= 0 then
        var o := EndRound(s1.(tickArmed := false));
        Output(o.state, [BroadcastState(s1)] + o.sent)
      else
        Output(s1, [BroadcastState(s1)])
  }

  /** The connection handler: allocate the id, register the player, tell
      the newcomer its id and name, broadcast the state, and when no round
      is running arm the one-second grace timeout. */
  function OnJoin(s: State, hint: Option<string>): Output {
    var id := s.nextId;
    var name := JoinName(hint, id);
    var s1 := s.(players := Put(s.players, Player(id, name, 0)), nextId := s.nextId + 1,
                 graceTimers := if s.roundRunning then s.graceTimers else s.graceTimers + 1);
    Output(s1, [Delivery([id], AssignId(id, name)), BroadcastState(s1)])
  }

  /** The close handler. */
  function OnLeave(s: State, id: Id): Output {
    var s1 := s.(players := Remove(s.players, id));
    Output(s1, [BroadcastState(s1)])
  }

  /** The message handler of connection `from`. */
  function OnMessage(s: State, from: Id, msg: Inbound): Output {
    match msg
    case Click =>
      var s1 := if s.roundRunning then s.(players := AddPoint(s.players, from)) else s;
      Output(s1, [BroadcastState(s1)])
    case SetName(name) =>
      if !Registered(s.players, from) then Output(s, [])
      else
        var s1 := s.(players := Rename(s.players, from, name));
        Output(s1, [BroadcastState(s1)])
    case Start =>
      if !s.roundRunning then StartRound(s) else Output(s, [])
    case Unrecognized =>
      Output(s, [])
  }

  /** A join-grace timeout: start a round unless one is running or nobody
      is left. */
  function OnGraceExpire(s: State): Output {
    if s.graceTimers == 0 then Output(s, [])
    else
      var s1 := s.(graceTimers := s.graceTimers - 1);
      if !s1.roundRunning && |s1.players| > 0 then StartRound(s1) else Output(s1, [])
  }

  /** A break timeout: start a round whenever somebody is registered; it
      does not look at `roundRunning`. */
  function OnBreakExpire(s: State): Output {
    if s.breakTimers == 0 then Output(s, [])
    else
      var s1 := s.(breakTimers := s.breakTimers - 1);
      if |s1.players| > 0 then StartRound(s1) else Output(s1, [])
  }

  function Step(s: State, e: Event): Output {
    match e
    case Join(hint) => OnJoin(s, hint)
    case Leave(id) => OnLeave(s, id)
    case Receive(from, msg) => OnMessage(s, from, msg)
    case Tick => OnTick(s)
    case GraceExpire => OnGraceExpire(s)
    case BreakExpire => OnBreakExpire(s)
  }

  /** The events the environment can deliver: messages and closes come only
      from open (hence registered) connections, and a timer fires only while
      it is armed. */
  predicate Enabled(s: State, e: Event) {
    match e
    case Join(_) => true
    case Leave(id) => Registered(s.players, id)
    case Receive(from, _) => Registered(s.players, from)
    case Tick => s.tickArmed
    case GraceExpire => s.graceTimers > 0
    case BreakExpire => s.breakTimers > 0
  }

  /** The events in order, from `s`; `sent` is everything sent, in order. */
  function Run(s: State, es: seq<Event>): Output
    decreases |es|
  {
    if |es| == 0 then Output(s, [])
    else
      var o1 := Step(s, es[0]);
      var o2 := Run(o1.state, es[1..]);
      Output(o2.state, o1.sent + o2.sent)
  }

  /** `n` firings of the round interval in a row. */
  function Ticks(s: State, n: nat): State
    decreases n
  {
    if n == 0 then s else Ticks(OnTick(s).state, n - 1)
  }

  /** Whether a step started a round: `startRound` is the only sender of
      `round_start`. */
  predicate StartsRound(o: Output) {
    exists k :: 0 <= k < |o.sent| && o.sent[k].msg.RoundStart?
  }

  /** What holds after every sequence of callbacks. */
  predicate Inv(s: State) {
    && UniqueIds(s.players)
    && (forall i :: 0 <= i < |s.players| ==> 1 <= s.players[i].id < s.nextId)
    && 1 <= s.nextId
    && 0 <= s.timeLeft <= RoundDuration
    && (s.roundRunning ==> s.timeLeft >= 1)
    && s.tickArmed == s.roundRunning
  }
}

=== FILE: wrappers.dfy ===
/** Optional values: used for the absent map entry, the absent name hint and
    the "no maximum yet" starting point of the winner search. */
module Wrappers {

  datatype Option<+T> = None | Some(value: T)
}
